=== FILE: README.md ===
# specdb core: survey store and catalog queries

This project models the two classes at the heart of specdb, a library that
serves spectra of quasars and other objects from an HDF5 archive.

- `InterfaceDB` (module `Interface`) holds, per survey, a metadata table
  and a row-aligned array of spectral records. Its operations are:
  - `grab_ids` resolves a list of object IDs, with optional column filters,
    into a row mask. It also resolves them into positions in the matched
    subset, kept in the caller's order.
  - `stage_data` asks the memory budget whether the matched spectra may be
    loaded.
  - `grab_spec` and `grab_meta` return spectra and metadata for one survey
    or for a list of surveys.
  - `update` refreshes the memory in use.
- `QueryCatalog` (module `Catalog`) holds the object catalog and the
  survey dictionary. Each survey has a power-of-two bit, and each catalog
  row's `flag_survey` is the OR of the bits of the surveys that observed it.
  Its operations are:
  - `in_surveys` filters names down to the surveys present.
  - `cutid_on_surveys` says which IDs were observed by some requested survey.
  - `get_cat` selects catalog rows by ID.
  - `setup` derives the sorted list of surveys present.

The numpy operations these classes use are modelled on sequences:
- `in1d`, boolean-mask indexing and integer-array indexing are modelled in
  module `Selection`. Negative indices count from the end; an index out of
  range fails.
- `argsort` and `searchsorted` are methods in module `Sorting`.
- `unique` on names is in `StringOrder`.

The catalog's modulo bit test is proved equal to a bitwise AND for every
power-of-two flag (`SurveyFlags`). Exceptions are modelled as `Failure`
values of `Outcomes.Error`.

A non-empty request that matches no row fails when `xsorted[ypos]` indexes
past the end of the empty matched subset,
so `grab_spec` returns nothing only for an empty ID list, and only then
does its list mode skip a survey.

The archive file is a constant map from survey name to `SurveyTable`. The
process's resident memory is a parameter (`rss`). Memory is counted in
whole bytes, with 1 Gb = 10^9 bytes.

## Model

| member | source | states |
|---|---|---|
| Interface.InterfaceDB.constructor | specdb/interface_db.py:37-55 | warning level 5 Gb, maximum 10 Gb whatever `maximum_ram` says, memory in use taken from the process by `update`, nothing staged; a well-formed archive gives a valid store |
| Interface.InterfaceDB.Update | specdb/interface_db.py:285-296 | memory in use becomes the resident size; the warning is raised exactly when that exceeds the warning level |
| Interface.MatchMask | specdb/interface_db.py:117-121 | the row mask has one entry per row, and every ID it selects was requested |
| Interface.MatchRows | specdb/interface_db.py:112-122 | fails with PartialCoverage iff some requested ID is absent from the ID column, then with MissingColumn iff a filter names a missing column; otherwise the mask is "ID requested and every filter column equal to its value" |
| Interface.SurvivorsResolve | specdb/interface_db.py:112-126 | resolution cannot fail once every requested ID survives the filters |
| Interface.TakeInsertionPoints | specdb/interface_db.py:123-126 | `xsorted[ypos]` raises exactly when a requested ID lies above every matched ID; otherwise entry k is the position of the smallest matched ID not below the k-th request |
| Interface.CeilingsStage | specdb/interface_db.py:126-130 | such positions index the matched rows without error and record the staged state |
| Interface.PlaceRequested | specdb/interface_db.py:123-130 | after the mask is built, placement fails iff `ResolveError` says so, always with IndexOutOfRange; otherwise it yields the staged mask, metadata and indices |
| Interface.InterfaceDB.GrabIds | specdb/interface_db.py:81-131 | unknown survey fails; otherwise it fails iff `ResolveError` of the table read (handed-in or stored), with that error, and changes nothing; success returns the row mask and stages, per requested ID, the matched row holding the smallest ID not below it |
| Interface.InterfaceDB.OrderPreserved | specdb/interface_db.py:123-130 | when every requested ID survives the filters, staged metadata row k and matched-subset position `indices[k]` both carry the k-th requested ID, repeats included |
| Interface.InterfaceDB.FilteredIdStagesNextRow | specdb/interface_db.py:112-126 | an ID present in the survey but removed by a filter is not refused: it is silently served the next larger matched row |
| Interface.StagedMetaAsWritten | specdb/interface_db.py:129 | `meta[gdi][indices]` as written: it raises unless every matched ID is a valid row position and every index a valid position of `gdi`; entry k is the row at the position given by the ID value `gdi[indices[k]]` |
| Interface.InterfaceDB.StagedMetaAsWrittenDiffers | specdb/interface_db.py:129 | with row IDs [1, 0] and request [0], `meta[gdi][indices]` as written stages the row of ID 1 while the intended selection stages the row of ID 0 |
| Interface.StagedMetaAsWrittenRaises | specdb/interface_db.py:129 | with row IDs [10, 20] and request [20], `meta[gdi][indices]` as written raises IndexError while the intended selection stages the row of ID 20 |
| Interface.InterfaceDB.StageData | specdb/interface_db.py:244-282 | fails on an unknown survey, a failed resolution or a survey without records; otherwise it admits the load iff record size times matched rows plus memory in use stays within the maximum; memory in use is unchanged; the staged fields are untouched when the survey is unknown or resolution fails, and staged whenever resolution succeeds, the later failure and the refusal included |
| Interface.InterfaceDB.EmptyMatchRefused | specdb/interface_db.py:123-126 | a non-empty request matching no row of a known survey fails resolution, so the no-match branch at lines 199-202 is reached only with no IDs |
| Interface.StagedLoads | specdb/interface_db.py:206-208 | reordering the masked spectral records by the staged indices never raises, and spectrum k and metadata row k come from the same matched row |
| Interface.InterfaceDB.GrabSpec | specdb/interface_db.py:171-219 | fails iff staging fails or the budget refuses; no matched row gives nothing; otherwise one spectrum and metadata row per requested ID, both from the same matched row, whose ID is the requested one whenever that ID was matched; the staged fields are untouched when the survey is unknown or resolution fails, and staged whenever resolution succeeds |
| Interface.InterfaceDB.GrabSpecList | specdb/interface_db.py:188-196 | the first failing survey fails the whole call; otherwise the two result lists are parallel, cover the surveys with at least one matched row in order, and each pair is loaded from its survey; an empty list leaves the staged fields untouched, and on success they hold the last survey's staging |
| Interface.SelectIds | specdb/interface_db.py:155-160 | without IDs the whole table; with IDs exactly the rows whose ID was requested |
| Interface.SelectIdsRows | specdb/interface_db.py:155-158 | with IDs, the rows of the table whose ID was requested, at increasing positions, none missing |
| Interface.InterfaceDB.GrabMeta | specdb/interface_db.py:133-169 | unknown survey fails; without IDs the whole table; with IDs it fails like `grab_ids` or returns the matched rows in table order, which become the staged metadata, with the row mask and the ceiling indices of that request staged too |
| Interface.InterfaceDB.GrabMetaList | specdb/interface_db.py:149-153 | one selection per survey in order; the first failing survey fails the whole call; without IDs the staged fields are untouched, and with IDs the staged metadata, row mask and ceiling indices are those of the last survey |
| Outcomes.FirstErrorIsFirst | specdb/interface_db.py:188-196 | the list outcome is clean iff every survey is, and otherwise the error of a failing survey that every earlier survey passed |
| Selection.Take | specdb/interface_db.py:126 | integer indexing succeeds iff every index is within range from either end; entry k is the element at the wrapped index |
| Selection.CountTrueAll | specdb/interface_db.py:113-115 | the mask's sum equals its length iff every entry is true |
| Selection.MaskedAt | specdb/interface_db.py:123 | entry k of a boolean-mask selection is the element at the k-th true position |
| Selection.MaskedMembership | specdb/query_catalog.py:136-138 | a value is in a boolean-mask selection iff some selected entry holds it |
| Selection.Positions | specdb/query_catalog.py:245-246 | the true positions of a mask, increasing and complete |
| Sorting.ArgSort | specdb/interface_db.py:124 | the result is a permutation of the positions that sorts the keys |
| Sorting.SearchSorted | specdb/interface_db.py:125 | entry k is the leftmost insertion point of the k-th value in the sorted view |
| Sorting.LeftInsertion | specdb/interface_db.py:125 | every key before the point is smaller than the value, none after it is |
| Sorting.PastEndIffAllBelow | specdb/interface_db.py:125-126 | the insertion point is past the end iff every key is below the value |
| Sorting.LeftInsertionIsCeiling | specdb/interface_db.py:125-126 | inside the array, the insertion point holds the smallest key not below the value |
| Sorting.LeftInsertionFindsPresent | specdb/interface_db.py:124-126 | a value among the keys is found at its insertion point |
| SurveyFlags.ModTestIsBitTest | specdb/query_catalog.py:133 | for a power-of-two flag, `(fs % (flag*2)) >= flag` holds iff `fs & flag != 0` |
| SurveyFlags.IsPow2Exactly | specdb/query_catalog.py:133 | the power-of-two predicate holds exactly for 2^k |
| StringOrder.Unique | specdb/query_catalog.py:294 | the result is strictly sorted and holds exactly the input names |
| StringOrder.SortedHasNoDuplicates | specdb/query_catalog.py:294 | a strictly sorted survey list has no repeats |
| Catalog.QueryCatalog.InSurveys | specdb/query_catalog.py:75-107 | a name or list is accepted and any other argument refused; the result is the requested names present in the catalog, in request order, repeats kept |
| Catalog.QueryCatalog.CutIdOnSurveys | specdb/query_catalog.py:109-139 | a survey missing from the dictionary fails with UnknownSurvey; otherwise, when no input ID is in the catalog, indexing with the empty float mask fails; otherwise entry k is true iff some catalog row with the k-th ID carries the bit of some requested survey |
| Catalog.ModTestsFlagged | specdb/query_catalog.py:129-134 | the mask accumulated from the modulo tests flags exactly the rows carrying the bit of some requested survey |
| Catalog.CutEmptyIff | specdb/query_catalog.py:125-129 | the catalog cut is empty exactly when no catalog row holds any input ID |
| Catalog.FlaggedIdsMask | specdb/query_catalog.py:135-138 | the flagged IDs mapped back onto the input IDs say, per input ID, whether some flagged catalog row holds it |
| Catalog.QueryCatalog.GetCat | specdb/query_catalog.py:245-246 | a catalog row is returned iff its ID was asked for |
| Catalog.QueryCatalog.GetCatIsCatalogOrderSelection | specdb/query_catalog.py:232-246 | `get_cat` returns catalog rows in catalog order, exactly those whose ID was asked for, not one per input ID |
| Catalog.QueryCatalog.FlagToSurveys | specdb/query_catalog.py:292 | testing each survey's bit with the modulo test yields exactly the names whose bit is set in the flag value |
| Catalog.QueryCatalog.Setup | specdb/query_catalog.py:275-294 | the survey list is strictly sorted and holds exactly the surveys decoded from some catalog flag value |
| Catalog.QueryCatalog.constructor | specdb/query_catalog.py:37-49 | keeps the catalog and dictionary and runs `setup`; power-of-two survey bits give a valid catalog |

## Left out

- The `BOSS_DR12` exception in `stage_data`, which accepts that survey without staging anything, is not modelled. Here that survey, like any other absent one, fails with UnknownSurvey.
- Printing, `verbose`, `show_meta`, `show_cat` and `__repr__` are left out. They have no effect on results.
- Column display formats are left out. Setting them reads the columns RA, DEC, zem, WV_MIN and WV_MAX of the selected metadata in `grab_meta` (specdb/interface_db.py:162-166), and RA, DEC, zem and sig_zem of the catalog in `setup` (specdb/query_catalog.py:285-288). On a table without one of those columns they raise KeyError. Archive tables always carry them, and the model does not require them: `GrabMeta` and `Setup` succeed on any column set.
- Coordinate searches (`match_coord`, `pairs`, `radial_search`) and the sky-coordinate object built in `setup` are left out. They need angular geometry and units.
- Opening the HDF5 file (`open_db`, `load_cat`) is not modelled. The archive and catalog are constructor parameters.
- The facade in specdb/specdb.py and the script specdb/scripts/get_uvqs.py are not part of this model.
- Building the `XSpectrum1D` object is left out. A loaded spectrum is the record itself: wave, flux, sig and optional co.
- Memory is counted in whole bytes, not floating-point gigabytes. Python's rounding of `nbytes/1e9` is not modelled.
- The resident size is read from the operating system in the source. Here it is the parameter `rss`.
- `maximum_ram` is accepted and, as in the source, ignored.
- `cutid_on_surveys` follows numpy 1.12 and later, where the empty mask, built without a dtype as a float array, cannot index the catalog IDs. Older numpy accepted it and returned an all-false mask.
- `flag_survey` values are natural numbers. Negative flags are outside the model.
- A catalog whose file has no survey dictionary (`survey_dict` of None) is not modelled.
- The `return_list` argument of `in_surveys` is unused in the source and is left out.
- `flag_to_surveys` lives in specdb/cat_utils.py, which is not part of this model. It is modelled as a loop that tests each survey's bit with the catalog's modulo test, and it is proved to return exactly the names whose bit is set. The encode/decode round trip of the flags is not stated.
- Sorting.ArgSort: numpy's default sort is not stable, and this one is. Only the positions of equal IDs can differ, and positions are compared by ID throughout.
- `stage_data` and `grab_spec` forward their keyword arguments to `grab_ids`. Only `match_meta` is forwarded here: `StageData` always lets `GrabIds` read the survey's own metadata table, so a `meta` table handed to `stage_data` or `grab_spec` is not modelled. `GrabIds` itself does take the `meta` argument.
- The class as shown never assigns `self.idkey`, which `grab_ids` reads at lines 113, 117 and 123, so on its own `grab_ids` would raise AttributeError. The model assumes that a subclass supplies the ID column; that column is the field `MetaRow.id`.
- Interface.InterfaceDB.GrabSpec: a refused load returns a bare `None` in the source. In list mode that makes the tuple unpacking raise TypeError. Both are modelled as Failure(BudgetExceeded).
- Interface.InterfaceDB.GrabSpec: the row a spectrum comes from is stated as some matched row with the right ID (`LoadedFrom`), not as the exact index `indices[k]` of the masked records.
- The docstrings of `grab_ids`, `grab_spec` and `stage_data` also allow a single integer ID, but `len(IDs)` at line 114 raises TypeError for a scalar. The model takes IDs as a sequence only.
- The `private` argument of `grab_ids` is unused in the source and is left out.

## Findings

| source | as written | input that shows it | evidently intended | confidence | as-written member | corrected member |
|---|---|---|---|---|---|---|
| specdb/interface_db.py:129 | `self.meta = meta[gdi][indices]` indexes the table by the matched ID values, as if they were row positions | rows with IDs [1, 0] and request [0] stage the row of ID 1; rows with IDs [10, 20] and request [20] raise IndexError | `meta[match_survey][indices]`: the matched rows, reordered to the requested IDs, as line 208 does for the spectra | not executed | Interface.StagedMetaAsWritten | Interface.InterfaceDB.GrabIds |

=== FILE: catalog.dfy ===
/** The catalog side of the archive: one row per object with its ID and
    survey-membership bitmask, and the survey dictionary that gives each
    survey name its power-of-two bit. */
module Catalog {
  import opened Outcomes
  import opened Selection
  import opened SurveyFlags
  import opened StringOrder

  /** A catalog row, reduced to the two columns the lookups read
      (coordinates, redshifts and the private ID are carried along unread). */
  datatype CatRow = CatRow(igmId: int, flagSurvey: nat)

  /** What `in_surveys` may be handed: one name, a list of names, or anything else. */
  datatype SurveyArg = Name(name: string) | NameList(names: seq<string>) | Other

  /** The input of `in_surveys` as a list: a lone name becomes a one-element list. */
  function Listed(input: SurveyArg): seq<string>
    requires !input.Other?
  {
    if input.Name? then [input.name] else input.names
  }

  function CatIds(cat: seq<CatRow>): seq<int>
  {
    seq(|cat|, i requires 0 <= i < |cat| => cat[i].igmId)
  }

  /** No catalog row holds any of the IDs. */
  predicate NoneCatalogued(cat: seq<CatRow>, igmIds: seq<int>)
  {
    forall i :: 0 <= i < |cat| ==> cat[i].igmId !in igmIds
  }

  /** Every requested survey is in the dictionary. */
  predicate AllKnown(dict: map<string, nat>, requested: seq<string>)
  {
    forall t :: 0 <= t < |requested| ==> requested[t] in dict
  }

  /** Every requested survey's bit value is a power of two. */
  predicate PowerBits(dict: map<string, nat>, requested: seq<string>)
    requires AllKnown(dict, requested)
  {
    forall t :: 0 <= t < |requested| ==> IsPow2(dict[requested[t]])
  }

  /** The catalog rows of the IDs are none exactly when no catalog row holds any of them. */
  lemma CutEmptyIff(cat: seq<CatRow>, igmIds: seq<int>)
    ensures CountTrue(InMask(CatIds(cat), igmIds)) == 0 <==> NoneCatalogued(cat, igmIds)
  {
    var good := InMask(CatIds(cat), igmIds);
    CountTrueNone(good);
    assert forall i :: 0 <= i < |cat| ==> (good[i] <==> cat[i].igmId in igmIds);
  }

  /** A flag carries the bit of at least one of the requested surveys. */
  predicate FlaggedFor(dict: map<string, nat>, fs: nat, requested: seq<string>)
  {
    exists t :: 0 <= t < |requested| && requested[t] in dict && HasBit(fs, dict[requested[t]])
  }

  /** The last two steps of `cutid_on_surveys`: given which of the
      catalog rows matching the input IDs are flagged, entry k of the result
      says whether some catalog row of the k-th input ID is flagged. */
  lemma FlaggedIdsMask(cat: seq<CatRow>, dict: map<string, nat>, requested: seq<string>, igmIds: seq<int>, flagged: seq<bool>)
    requires |flagged| == CountTrue(InMask(CatIds(cat), igmIds))
    requires forall j :: 0 <= j < |flagged| ==>
      (flagged[j] <==> FlaggedFor(dict, Masked(cat, InMask(CatIds(cat), igmIds))[j].flagSurvey, requested))
    ensures var final := InMask(igmIds, Masked(CatIds(Masked(cat, InMask(CatIds(cat), igmIds))), flagged));
      && |final| == |igmIds|
      && forall k :: 0 <= k < |igmIds| ==>
        (final[k] <==> exists i :: 0 <= i < |cat| && cat[i].igmId == igmIds[k] && FlaggedFor(dict, cat[i].flagSurvey, requested))
  {
    var good := InMask(CatIds(cat), igmIds);
    var cutCat := Masked(cat, good);
    var final := InMask(igmIds, Masked(CatIds(cutCat), flagged));
    forall k | 0 <= k < |igmIds|
      ensures final[k] <==> exists i :: 0 <= i < |cat| && cat[i].igmId == igmIds[k] && FlaggedFor(dict, cat[i].flagSurvey, requested)
    {
      var v := igmIds[k];
      MaskedMembership(CatIds(cutCat), flagged, v);
      if final[k] {
        var j :| 0 <= j < |cutCat| && flagged[j] && CatIds(cutCat)[j] == v;
        MaskedAt(cat, good, j);
        var i := Positions(good)[j];
        assert cat[i] == cutCat[j];
        assert FlaggedFor(dict, cat[i].flagSurvey, requested);
      }
      if i :| 0 <= i < |cat| && cat[i].igmId == v && FlaggedFor(dict, cat[i].flagSurvey, requested) {
        assert good[i];
        assert i in Positions(good);
        var j :| 0 <= j < |Positions(good)| && Positions(good)[j] == i;
        MaskedAt(cat, good, j);
        assert flagged[j] && CatIds(cutCat)[j] == v;
      }
    }
  }

  /** Accumulating the modulo tests over the requested surveys flags exactly
      the values carrying the bit of some requested survey. */
  lemma ModTestsFlagged(dict: map<string, nat>, requested: seq<string>, fs: seq<nat>, flagged: seq<bool>)
    requires AllKnown(dict, requested) && PowerBits(dict, requested) && |flagged| == |fs|
    requires forall j :: 0 <= j < |fs| ==>
      (flagged[j] <==> exists t :: 0 <= t < |requested| && ModTest(fs[j], dict[requested[t]]))
    ensures forall j :: 0 <= j < |fs| ==> (flagged[j] <==> FlaggedFor(dict, fs[j], requested))
  {
    forall j, t | 0 <= j < |fs| && 0 <= t < |requested|
      ensures ModTest(fs[j], dict[requested[t]]) <==> HasBit(fs[j], dict[requested[t]])
    {
      ModTestIsBitTest(fs[j], dict[requested[t]]);
    }
  }

  class QueryCatalog {
    const cat: seq<CatRow>
    const surveyDict: map<string, nat>
    /** The surveys present in the catalog, sorted, without repeats. */
    var surveys: seq<string>

    /** Every survey's bit value is a power of two. */
    ghost predicate Valid()
    {
      forall s :: s in surveyDict ==> IsPow2(surveyDict[s])
    }

    /** The distinct `flag_survey` values of the catalog. */
    function FlagValues(): set<nat>
    {
      set i | 0 <= i < |cat| :: cat[i].flagSurvey
    }

    /** Loading the catalog, then `setup`. */
    constructor (cat: seq<CatRow>, surveyDict: map<string, nat>)
      requires forall s :: s in surveyDict ==> IsPow2(surveyDict[s])
      ensures this.cat == cat && this.surveyDict == surveyDict
      ensures Valid()
      ensures StrictlySorted(surveys)
      ensures forall s :: s in surveys <==> exists f :: f in FlagValues() && s in Decode(f, surveyDict)
    {
      this.cat := cat;
      this.surveyDict := surveyDict;
      surveys := [];
      new;
      Setup();
    }

    /** `flag_to_surveys`: the names of the surveys whose bit is set in `fs`,
        found by testing each survey's bit with the catalog's modulo test;
        listed in no particular order. */
    method FlagToSurveys(fs: nat) returns (names: seq<string>)
      requires Valid()
      ensures forall s :: s in names <==> s in Decode(fs, surveyDict)
    {
      names := [];
      var rest := surveyDict.Keys;
      while rest != {}
        invariant rest <= surveyDict.Keys
        invariant forall s :: s in names <==> s in surveyDict.Keys - rest && HasBit(fs, surveyDict[s])
        decreases rest
      {
        var s :| s in rest;
        ModTestIsBitTest(fs, surveyDict[s]);
        if ModTest(fs, surveyDict[s]) {
          names := names + [s];
        }
        rest := rest - {s};
      }
    }

    /** `setup`: the survey list is the sorted union of the surveys decoded
        from each distinct flag value of the catalog. */
    method Setup()
      requires Valid()
      modifies this`surveys
      ensures StrictlySorted(surveys)
      ensures forall s :: s in surveys <==> exists f :: f in FlagValues() && s in Decode(f, surveyDict)
    {
      var unif := FlagValues();
      var allSurveys: seq<string> := [];
      var rest := unif;
      while rest != {}
        invariant rest <= unif
        invariant forall s :: s in allSurveys <==> exists f :: f in unif - rest && s in Decode(f, surveyDict)
        decreases rest
      {
        var ifs :| ifs in rest;
        var names := FlagToSurveys(ifs);
        allSurveys := allSurveys + names;
        rest := rest - {ifs};
      }
      surveys := Unique(allSurveys);
    }

    /** `in_surveys`: the requested names that the catalog holds, in the
        order requested. A lone name counts as a one-element list; any
        other kind of argument is refused. */
    method InSurveys(input: SurveyArg) returns (r: Result<seq<string>>)
      ensures r.Failure? <==> input.Other?
      ensures r.Failure? ==> r.error == BadArgument
      ensures r.Success? ==> r.value == Masked(Listed(input), InMask(Listed(input), surveys))
      ensures r.Success? ==> forall x :: x in r.value <==> x in Listed(input) && x in surveys
    {
      var isurveys: seq<string>;
      match input {
        case Name(n) => isurveys := [n];
        case NameList(ns) => isurveys := ns;
        case Other => return Failure(BadArgument);
      }
      var fsurveys: seq<string> := [];
      for i := 0 to |isurveys|
        invariant fsurveys == Masked(isurveys[..i], InMask(isurveys[..i], surveys))
      {
        if isurveys[i] in surveys {
          fsurveys := fsurveys + [isurveys[i]];
        }
        assert isurveys[..i + 1][..i] == isurveys[..i];
        assert InMask(isurveys[..i + 1], surveys)[..i] == InMask(isurveys[..i], surveys);
      }
      assert isurveys[..|isurveys|] == isurveys;
      forall x
        ensures x in fsurveys <==> x in isurveys && x in surveys
      {
        MaskedMembership(isurveys, InMask(isurveys, surveys), x);
      }
      r := Success(fsurveys);
    }

    /** `cutid_on_surveys`: entry k of the mask says whether the k-th input ID
        is a catalog object observed by at least one requested survey. A
        survey missing from the dictionary fails first; then, when no input
        ID is in the catalog, the empty mask is a float array and indexing
        the catalog IDs with it fails. */
    method CutIdOnSurveys(requested: seq<string>, igmIds: seq<int>) returns (r: Result<seq<bool>>)
      requires Valid()
      ensures !AllKnown(surveyDict, requested) ==> r == Failure(UnknownSurvey)
      ensures AllKnown(surveyDict, requested) && NoneCatalogued(cat, igmIds) ==> r == Failure(NonIntegerIndex)
      ensures AllKnown(surveyDict, requested) && !NoneCatalogued(cat, igmIds) ==>
        && r.Success? && |r.value| == |igmIds|
        && forall k :: 0 <= k < |igmIds| ==>
          (r.value[k] <==> exists i :: 0 <= i < |cat| && cat[i].igmId == igmIds[k] && FlaggedFor(surveyDict, cat[i].flagSurvey, requested))
    {
      var good := InMask(CatIds(cat), igmIds);
      var cutCat := Masked(cat, good);
      var fs := seq(|cutCat|, j requires 0 <= j < |cutCat| => cutCat[j].flagSurvey);
      var msk := new bool[|cutCat|](_ => false);
      for si := 0 to |requested|
        invariant forall t :: 0 <= t < si ==> requested[t] in surveyDict
        invariant forall j :: 0 <= j < msk.Length ==>
          (msk[j] <==> exists t :: 0 <= t < si && ModTest(fs[j], surveyDict[requested[t]]))
      {
        if requested[si] !in surveyDict {
          return Failure(UnknownSurvey);
        }
        var flag := surveyDict[requested[si]];
        var query := seq(|fs|, j requires 0 <= j < |fs| => ModTest(fs[j], flag));
        ghost var before := msk[..];
        if CountTrue(query) > 0 {
          forall j | 0 <= j < msk.Length && query[j] {
            msk[j] := true;
          }
        } else {
          assert Positions(query) == [];
        }
        assert forall j :: 0 <= j < msk.Length ==> (msk[j] <==> before[j] || query[j]);
      }
      CutEmptyIff(cat, igmIds);
      if |cutCat| == 0 {
        return Failure(NonIntegerIndex);
      }
      var flagged := msk[..];
      ModTestsFlagged(surveyDict, requested, fs, flagged);
      FlaggedIdsMask(cat, surveyDict, requested, igmIds, flagged);
      var gdIDs := Masked(CatIds(cutCat), flagged);
      var final := InMask(igmIds, gdIDs);
      r := Success(final);
    }

    /** `get_cat`: the catalog rows whose ID is among the input IDs. */
    function GetCat(igmIds: seq<int>): (rows: seq<CatRow>)
      ensures forall x :: x in rows <==> x in cat && x.igmId in igmIds
    {
      var m := InMask(CatIds(cat), igmIds);
      assert forall x :: x in Masked(cat, m) <==> x in cat && x.igmId in igmIds by {
        forall x {
          MaskedMembership(cat, m, x);
        }
      }
      Masked(cat, m)
    }

    /** `get_cat` keeps catalog order, not input order: its rows are the
        catalog rows at increasing positions, exactly those whose ID was asked for. */
    lemma GetCatIsCatalogOrderSelection(igmIds: seq<int>)
      ensures var rows, p := GetCat(igmIds), Positions(InMask(CatIds(cat), igmIds));
        && |rows| == |p|
        && (forall k :: 0 <= k < |rows| ==> rows[k] == cat[p[k]] && cat[p[k]].igmId in igmIds)
        && (forall a, b :: 0 <= a < b < |p| ==> p[a] < p[b])
        && (forall i :: 0 <= i < |cat| && cat[i].igmId in igmIds ==> i in p)
    {
      var m := InMask(CatIds(cat), igmIds);
      forall k | 0 <= k < |GetCat(igmIds)|
        ensures GetCat(igmIds)[k] == cat[Positions(m)[k]]
      {
        MaskedAt(cat, m, k);
      }
    }
  }
}

=== FILE: flags.dfy ===
/** Survey membership bitmasks. Every survey has a distinct power-of-two
    bit value; a catalog row's `flag_survey` is the OR of the bits of the
    surveys that observed it. The catalog tests a bit with the modulo
    expression `(fs % (flag * 2)) >= flag`; this module proves that test
    equal to the bitwise test `fs & flag != 0` for every power-of-two flag. */
module SurveyFlags {

  function Pow2(k: nat): (r: nat)
    ensures r >= 1
  {
    if k == 0 then 1 else 2 * Pow2(k - 1)
  }

  /** n is 1, 2, 4, 8, ... */
  predicate IsPow2(n: int)
    decreases if n < 0 then 0 else n
  {
    if n <= 0 then false
    else if n == 1 then true
    else n % 2 == 0 && IsPow2(n / 2)
  }

  /** Every power of two is some Pow2(k), and conversely. */
  lemma {:induction false} IsPow2Exactly(n: int)
    ensures IsPow2(n) <==> exists k: nat :: Pow2(k) == n
  {
    if IsPow2(n) {
      if n > 1 {
        IsPow2Exactly(n / 2);
        var k: nat :| Pow2(k) == n / 2;
        assert Pow2(k + 1) == n;
      } else {
        assert Pow2(0) == n;
      }
    }
    if k: nat :| Pow2(k) == n {
      Pow2IsPow2(k);
    }
  }

  lemma {:induction false} Pow2IsPow2(k: nat)
    ensures IsPow2(Pow2(k))
  {
    if k > 0 {
      Pow2IsPow2(k - 1);
      assert Pow2(k) / 2 == Pow2(k - 1);
    }
  }

  /** Bitwise AND of two non-negative integers, bit by bit from the lowest. */
  function BitAnd(a: nat, b: nat): nat
  {
    if a == 0 || b == 0 then 0
    else 2 * BitAnd(a / 2, b / 2) + (a % 2) * (b % 2)
  }

  /** The bitwise membership test `fs & flag != 0`. */
  predicate HasBit(fs: nat, flag: nat)
  {
    BitAnd(fs, flag) != 0
  }

  /** The membership test the catalog evaluates, `(fs % (flag*2)) >= flag`. */
  predicate ModTest(fs: nat, flag: nat)
    requires flag > 0
  {
    fs % (flag * 2) >= flag
  }

  /** A positive multiple of d is at least d. */
  lemma MultipleAtLeast(a: int, d: int)
    requires a >= 1 && d > 0
    ensures a * d >= d
  {
    var e := a - 1;
    assert e * d >= 0;
    assert a * d == e * d + d;
  }

  /** Division with remainder has one answer. */
  lemma DivModUnique(x: int, d: int, q: int, r: int)
    requires d > 0 && 0 <= r < d && x == q * d + r
    ensures x / d == q && x % d == r
  {
    var q', r' := x / d, x % d;
    assert x == q' * d + r';
    assert (q - q') * d == r' - r;
    if q > q' {
      MultipleAtLeast(q - q', d);
    } else if q < q' {
      MultipleAtLeast(q' - q, d);
    }
  }

  /** Bit h of x, tested modulo 4h, is bit h/2 of x/2 tested modulo 2h. */
  lemma HalveModTest(x: nat, h: nat)
    requires h >= 1
    ensures x % (4 * h) >= 2 * h <==> (x / 2) % (2 * h) >= h
  {
    var half, b := x / 2, x % 2;
    var q, s := half / (2 * h), half % (2 * h);
    assert half == q * (2 * h) + s;
    assert x == q * (4 * h) + (2 * s + b);
    DivModUnique(x, 4 * h, q, 2 * s + b);
  }

  /** For a power-of-two flag the modulo test is exactly the bit test. */
  lemma {:induction false} ModTestIsBitTest(fs: nat, flag: nat)
    requires IsPow2(flag)
    ensures ModTest(fs, flag) <==> HasBit(fs, flag)
    decreases flag
  {
    if fs == 0 {
      assert BitAnd(fs, flag) == 0;
    } else if flag == 1 {
      assert BitAnd(fs / 2, 0) == 0;
      assert BitAnd(fs, flag) == fs % 2;
    } else {
      var h := flag / 2;
      ModTestIsBitTest(fs / 2, h);
      assert flag % 2 == 0 && flag == 2 * h;
      assert BitAnd(fs, flag) == 2 * BitAnd(fs / 2, h);
      HalveModTest(fs, h);
      assert flag * 2 == 4 * h;
    }
  }

  /** The names of the surveys whose bit is set in `fs`. */
  function Decode(fs: nat, dict: map<string, nat>): set<string>
  {
    set s | s in dict && HasBit(fs, dict[s])
  }
}

=== FILE: interface_db.dfy ===
/** The survey store: per-survey metadata and spectral-record tables,
    order-preserving ID resolution, and the memory-budget gate that
    admits or refuses a staged load. Memory is counted in bytes
    (1 Gb = 10^9 bytes); the archive file is the constant `hdf`. */
module Interface {
  import opened Outcomes
  import opened Selection
  import opened Sorting

  const GB: nat := 1_000_000_000

  /** A metadata cell: the filters compare whole cells for equality. */
  datatype Cell = IntCell(i: int) | StrCell(s: string)

  /** A metadata row: its ID column and its other columns by name. */
  datatype MetaRow = MetaRow(id: int, cols: map<string, Cell>)

  datatype MetaTable = MetaTable(columns: set<string>, rows: seq<MetaRow>)

  /** One spectrum: wavelength, flux, uncertainty and an optional continuum. */
  datatype SpecRecord = SpecRecord(wave: seq<real>, flux: seq<real>, sig: seq<real>, co: Option<seq<real>>)

  /** A survey group of the archive: `meta` and `spec` are row-aligned;
      `recordBytes` is the byte size of one spectral record. */
  datatype SurveyTable = SurveyTable(meta: MetaTable, spec: seq<SpecRecord>, recordBytes: nat)

  /** Spectra and metadata handed back by `grab_spec`, row k for input ID k. */
  datatype Loaded = Loaded(spec: seq<SpecRecord>, meta: seq<MetaRow>)

  /** Every row has exactly the table's columns. */
  predicate WellFormedMeta(t: MetaTable)
  {
    forall i :: 0 <= i < |t.rows| ==> t.rows[i].cols.Keys == t.columns
  }

  predicate WellFormedSurvey(st: SurveyTable)
  {
    WellFormedMeta(st.meta) && |st.spec| == |st.meta.rows|
  }

  /** The ID column of a metadata table. */
  function Ids(rows: seq<MetaRow>): seq<int>
  {
    seq(|rows|, i requires 0 <= i < |rows| => rows[i].id)
  }

  /** The row holds, in every filter column, the filter's value. */
  predicate RowMatches(row: MetaRow, matchMeta: seq<(string, Cell)>)
  {
    forall j :: 0 <= j < |matchMeta| ==> matchMeta[j].0 in row.cols && row.cols[matchMeta[j].0] == matchMeta[j].1
  }

  /** The row mask of `grab_ids`: the row's ID was requested and the row passes every filter. */
  function MatchMask(rows: seq<MetaRow>, ids: seq<int>, matchMeta: seq<(string, Cell)>): (m: seq<bool>)
    ensures |m| == |rows|
    ensures forall x :: x in Masked(Ids(rows), m) ==> x in ids
  {
    var m := seq(|rows|, i requires 0 <= i < |rows| => rows[i].id in ids && RowMatches(rows[i], matchMeta));
    assert forall x :: x in Masked(Ids(rows), m) ==> x in ids by {
      forall x | x in Masked(Ids(rows), m) {
        MaskedMembership(Ids(rows), m, x);
      }
    }
    m
  }

  /** The IDs of the matched rows, in table order. */
  function MatchedIds(rows: seq<MetaRow>, ids: seq<int>, matchMeta: seq<(string, Cell)>): seq<int>
  {
    Masked(Ids(rows), MatchMask(rows, ids, matchMeta))
  }

  predicate AllBelow(s: seq<int>, v: int)
  {
    forall i :: 0 <= i < |s| ==> s[i] < v
  }

  /** Why the row mask cannot be built, in the order the checks run: a
      requested ID missing from the table, or a filter on a column the
      table lacks. */
  function MatchError(t: MetaTable, ids: seq<int>, matchMeta: seq<(string, Cell)>): Option<Error>
  {
    if exists k :: 0 <= k < |ids| && ids[k] !in Ids(t.rows) then Some(PartialCoverage)
    else if exists j :: 0 <= j < |matchMeta| && matchMeta[j].0 !in t.columns then Some(MissingColumn)
    else None
  }

  /** Why `grab_ids` fails on a metadata table: the row mask cannot be built,
      or a requested ID lies above every matched ID, so that its insertion
      point is past the end of the matched subset. */
  function ResolveError(t: MetaTable, ids: seq<int>, matchMeta: seq<(string, Cell)>): Option<Error>
  {
    if MatchError(t, ids, matchMeta).Some? then MatchError(t, ids, matchMeta)
    else if exists k :: 0 <= k < |ids| && AllBelow(MatchedIds(t.rows, ids, matchMeta), ids[k]) then Some(IndexOutOfRange)
    else None
  }

  /** The row mask of `grab_ids`: every requested ID must occur in the
      table; the mask starts as "ID requested" and each filter in turn
      keeps the rows holding its value. */
  method MatchRows(t: MetaTable, ids: seq<int>, matchMeta: seq<(string, Cell)>) returns (r: Result<seq<bool>>)
    requires WellFormedMeta(t)
    ensures r.Failure? <==> MatchError(t, ids, matchMeta).Some?
    ensures r.Failure? ==> Some(r.error) == MatchError(t, ids, matchMeta)
    ensures r.Success? ==> r.value == MatchMask(t.rows, ids, matchMeta)
  {
    var rowIds := Ids(t.rows);
    var chk := InMask(ids, rowIds);
    CountTrueAll(chk);
    assert |chk| == |ids|;
    if CountTrue(chk) != |ids| {
      var k :| 0 <= k < |ids| && !chk[k];
      assert ids[k] !in Ids(t.rows);
      return Failure(PartialCoverage);
    }
    forall k | 0 <= k < |ids|
      ensures ids[k] in Ids(t.rows)
    {
      assert chk[k];
    }
    var matchSurvey := InMask(rowIds, ids);
    for j := 0 to |matchMeta|
      invariant |matchSurvey| == |t.rows|
      invariant forall q :: 0 <= q < j ==> matchMeta[q].0 in t.columns
      invariant forall i :: 0 <= i < |t.rows| ==>
        (matchSurvey[i] <==> t.rows[i].id in ids && RowMatches(t.rows[i], matchMeta[..j]))
    {
      var key, value := matchMeta[j].0, matchMeta[j].1;
      if key !in t.columns {
        return Failure(MissingColumn);
      }
      matchSurvey := seq(|t.rows|, i requires 0 <= i < |t.rows| => matchSurvey[i] && t.rows[i].cols[key] == value);
      assert forall i :: 0 <= i < |t.rows| ==>
        (RowMatches(t.rows[i], matchMeta[..j + 1]) <==> RowMatches(t.rows[i], matchMeta[..j]) && t.rows[i].cols[key] == value);
    }
    assert matchMeta[..|matchMeta|] == matchMeta;
    r := Success(matchSurvey);
  }

  /** Resolution succeeds whenever every requested ID survives the filters. */
  lemma SurvivorsResolve(t: MetaTable, ids: seq<int>, matchMeta: seq<(string, Cell)>)
    requires forall j :: 0 <= j < |matchMeta| ==> matchMeta[j].0 in t.columns
    requires forall k :: 0 <= k < |ids| ==> ids[k] in MatchedIds(t.rows, ids, matchMeta)
    ensures ResolveError(t, ids, matchMeta) == None
  {
    var mask := MatchMask(t.rows, ids, matchMeta);
    forall k | 0 <= k < |ids|
      ensures ids[k] in Ids(t.rows) && !AllBelow(MatchedIds(t.rows, ids, matchMeta), ids[k])
    {
      MaskedMembership(Ids(t.rows), mask, ids[k]);
    }
  }

  /** `meta[gdi][indices]` as written: the matched IDs are used as row
      positions of the whole table, then the result is reordered. */
  function StagedMetaAsWritten(rows: seq<MetaRow>, gdi: seq<int>, idx: seq<int>): (r: Result<seq<MetaRow>>)
    ensures r.Success? <==>
      && (forall k :: 0 <= k < |gdi| ==> InBounds(gdi[k], |rows|))
      && (forall k :: 0 <= k < |idx| ==> InBounds(idx[k], |gdi|))
    ensures r.Success? ==> |r.value| == |idx|
    ensures r.Success? ==> forall k :: 0 <= k < |idx| ==> r.value[k] == rows[Wrap(gdi[Wrap(idx[k], |gdi|)], |rows|)]
  {
    match Take(rows, gdi)
    case Failure(e) => Failure(e)
    case Success(sub) => Take(sub, idx)
  }

  /** Metadata table whose IDs lie past its last row position. */
  function LargeIdTable(): MetaTable
  {
    MetaTable({}, [MetaRow(10, map[]), MetaRow(20, map[])])
  }

  /** Position x of `keys` holds the smallest key not below v. */
  predicate IsCeiling(keys: seq<int>, v: int, x: nat)
  {
    && x < |keys| && v <= keys[x]
    && forall i :: 0 <= i < |keys| && v <= keys[i] ==> keys[x] <= keys[i]
  }

  /** `sorter[searchsorted(keys, vs, sorter=sorter)]`: the indexing raises
      exactly when some value lies above every key; otherwise entry k is the
      position of the smallest key not below `vs[k]`. */
  lemma TakeInsertionPoints(keys: seq<int>, order: seq<nat>, vs: seq<int>, pos: seq<nat>)
    requires IsPermutationOfRange(order, |keys|) && SortedBy(keys, order)
    requires |pos| == |vs|
    requires forall k :: 0 <= k < |vs| ==> IsLeftInsertion(keys, order, vs[k], pos[k])
    ensures Take(order, pos).Failure? <==> exists k :: 0 <= k < |vs| && AllBelow(keys, vs[k])
    ensures Take(order, pos).Success? ==>
      forall k :: 0 <= k < |vs| ==> IsCeiling(keys, vs[k], Take(order, pos).value[k])
  {
    forall k | 0 <= k < |vs|
      ensures pos[k] == |order| <==> AllBelow(keys, vs[k])
    {
      PastEndIffAllBelow(keys, order, vs[k], pos[k]);
    }
    var taken := Take(order, pos);
    if taken.Success? {
      forall k | 0 <= k < |vs|
        ensures IsCeiling(keys, vs[k], taken.value[k])
      {
        LeftInsertionIsCeiling(keys, order, vs[k], pos[k]);
      }
    }
  }

  /** What a successful `grab_ids` on table t records: the row mask, and for
      each requested ID k the position `idx[k]` of the smallest matched ID not
      below it (the ID itself whenever it was matched), with `metaRows[k]`
      the matched row at that position. */
  ghost predicate StagedState(t: MetaTable, ids: seq<int>, matchMeta: seq<(string, Cell)>,
                              mask: seq<bool>, metaRows: seq<MetaRow>, idx: seq<nat>)
  {
    && mask == MatchMask(t.rows, ids, matchMeta)
    && |idx| == |ids| && |metaRows| == |ids|
    && (forall k :: 0 <= k < |ids| ==> IsCeiling(MatchedIds(t.rows, ids, matchMeta), ids[k], idx[k]))
    && (forall k :: 0 <= k < |ids| ==> metaRows[k] == Masked(t.rows, mask)[idx[k]])
  }

  /** Positions that are ceilings of the requested IDs select, from the
      matched rows, the metadata `grab_ids` records. */
  lemma CeilingsStage(t: MetaTable, ids: seq<int>, matchMeta: seq<(string, Cell)>, idx: seq<nat>)
    requires |idx| == |ids|
    requires forall k :: 0 <= k < |ids| ==> IsCeiling(MatchedIds(t.rows, ids, matchMeta), ids[k], idx[k])
    ensures Take(Masked(t.rows, MatchMask(t.rows, ids, matchMeta)), idx).Success?
    ensures StagedState(t, ids, matchMeta, MatchMask(t.rows, ids, matchMeta),
                        Take(Masked(t.rows, MatchMask(t.rows, ids, matchMeta)), idx).value, idx)
  {
    var mask := MatchMask(t.rows, ids, matchMeta);
    var rows := Masked(t.rows, mask);
    assert |rows| == |MatchedIds(t.rows, ids, matchMeta)|;
    assert forall k :: 0 <= k < |idx| ==> InBounds(idx[k], |rows|);
    var taken := Take(rows, idx);
    forall k | 0 <= k < |ids|
      ensures taken.value[k] == rows[idx[k]]
    {
      assert Wrap(idx[k], |rows|) == idx[k];
    }
  }

  /** Once the row mask is built, placing the requested IDs by insertion
      points into the sorted matched IDs fails exactly as `ResolveError`
      says, and otherwise records the staged state. */
  lemma PlaceRequested(t: MetaTable, ids: seq<int>, matchMeta: seq<(string, Cell)>, order: seq<nat>, pos: seq<nat>)
    requires MatchError(t, ids, matchMeta).None?
    requires IsPermutationOfRange(order, |MatchedIds(t.rows, ids, matchMeta)|)
    requires SortedBy(MatchedIds(t.rows, ids, matchMeta), order)
    requires |pos| == |ids|
    requires forall k :: 0 <= k < |ids| ==> IsLeftInsertion(MatchedIds(t.rows, ids, matchMeta), order, ids[k], pos[k])
    ensures Take(order, pos).Failure? <==> ResolveError(t, ids, matchMeta).Some?
    ensures Take(order, pos).Failure? ==> ResolveError(t, ids, matchMeta) == Some(IndexOutOfRange)
    ensures Take(order, pos).Success? ==>
      && Take(Masked(t.rows, MatchMask(t.rows, ids, matchMeta)), Take(order, pos).value).Success?
      && StagedState(t, ids, matchMeta, MatchMask(t.rows, ids, matchMeta),
                     Take(Masked(t.rows, MatchMask(t.rows, ids, matchMeta)), Take(order, pos).value).value,
                     Take(order, pos).value)
  {
    TakeInsertionPoints(MatchedIds(t.rows, ids, matchMeta), order, ids, pos);
    if Take(order, pos).Success? {
      CeilingsStage(t, ids, matchMeta, Take(order, pos).value);
    }
  }

  /** Spectra and metadata loaded from survey table st: row k of each comes
      from one and the same matched row of the table, whose ID is not below
      the k-th requested ID and equals it whenever that ID was matched. */
  ghost predicate LoadedFromTable(st: SurveyTable, ids: seq<int>, matchMeta: seq<(string, Cell)>, l: Loaded)
  {
    && |st.spec| == |st.meta.rows|
    && var rows, mask := st.meta.rows, MatchMask(st.meta.rows, ids, matchMeta);
    && |l.spec| == |ids| && |l.meta| == |ids|
    && forall k :: 0 <= k < |ids| ==>
      exists p ::
        && 0 <= p < |rows| && mask[p]
        && l.spec[k] == st.spec[p] && l.meta[k] == rows[p]
        && ids[k] <= rows[p].id
        && (ids[k] in MatchedIds(rows, ids, matchMeta) ==> rows[p].id == ids[k])
  }

  /** Reordering the matched spectral records like the staged metadata
      loads both from the same rows. */
  lemma StagedLoads(st: SurveyTable, ids: seq<int>, matchMeta: seq<(string, Cell)>,
                    mask: seq<bool>, metaRows: seq<MetaRow>, idx: seq<nat>)
    requires WellFormedSurvey(st)
    requires StagedState(st.meta, ids, matchMeta, mask, metaRows, idx)
    ensures Take(Masked(st.spec, mask), idx).Success?
    ensures LoadedFromTable(st, ids, matchMeta, Loaded(Take(Masked(st.spec, mask), idx).value, metaRows))
  {
    var rows := st.meta.rows;
    var gdi := Masked(Ids(rows), mask);
    var specs := Masked(st.spec, mask);
    assert forall k :: 0 <= k < |idx| ==> InBounds(idx[k], |specs|);
    var data := Take(specs, idx).value;
    forall k | 0 <= k < |ids|
      ensures exists p ::
        && 0 <= p < |rows| && mask[p]
        && data[k] == st.spec[p] && metaRows[k] == rows[p]
        && ids[k] <= rows[p].id
        && (ids[k] in MatchedIds(rows, ids, matchMeta) ==> rows[p].id == ids[k])
    {
      var x := idx[k];
      var p := Positions(mask)[x];
      assert Wrap(x, |specs|) == x;
      MaskedAt(st.spec, mask, x);
      MaskedAt(rows, mask, x);
      MaskedAt(Ids(rows), mask, x);
      if ids[k] in gdi {
        var i :| 0 <= i < |gdi| && gdi[i] == ids[k];
      }
    }
  }

  /** The metadata `grab_meta` returns: the whole table without IDs, else
      the rows whose ID was requested, in table order. */
  function SelectIds(rows: seq<MetaRow>, ids: Option<seq<int>>): (r: seq<MetaRow>)
    ensures ids.None? ==> r == rows
    ensures ids.Some? ==> forall x :: x in r <==> x in rows && x.id in ids.value
  {
    if ids.None? then rows
    else
      var m := MatchMask(rows, ids.value, []);
      assert forall x :: x in Masked(rows, m) <==> x in rows && x.id in ids.value by {
        forall x {
          MaskedMembership(rows, m, x);
        }
      }
      Masked(rows, m)
  }

  /** With IDs, `grab_meta` keeps exactly the rows whose ID was requested,
      at increasing row positions of the table. */
  lemma SelectIdsRows(rows: seq<MetaRow>, ids: seq<int>)
    ensures var p := Positions(MatchMask(rows, ids, []));
      && |SelectIds(rows, Some(ids))| == |p|
      && (forall k :: 0 <= k < |p| ==> SelectIds(rows, Some(ids))[k] == rows[p[k]] && rows[p[k]].id in ids)
      && (forall a, b :: 0 <= a < b < |p| ==> p[a] < p[b])
      && (forall i :: 0 <= i < |rows| && rows[i].id in ids ==> i in p)
  {
    var mask := MatchMask(rows, ids, []);
    assert forall i :: 0 <= i < |rows| ==> (mask[i] <==> rows[i].id in ids);
    forall k | 0 <= k < CountTrue(mask)
      ensures SelectIds(rows, Some(ids))[k] == rows[Positions(mask)[k]]
    {
      MaskedAt(rows, mask, k);
    }
  }

  /** Rows of IDs 1 and 0: asking for ID 0 matches row 1 only. */
  lemma SwappedIdsMatch(t: MetaTable)
    requires |t.rows| == 2 && t.rows[0].id == 1 && t.rows[1].id == 0
    ensures |MatchedIds(t.rows, [0], [])| == 1 && MatchedIds(t.rows, [0], [])[0] == 0
    ensures |Masked(t.rows, MatchMask(t.rows, [0], []))| == 1
    ensures Masked(t.rows, MatchMask(t.rows, [0], []))[0] == t.rows[1]
  {
    var mask := MatchMask(t.rows, [0], []);
    assert mask == [false, true];
    assert Ids(t.rows) == [1, 0];
  }

  /** On those rows, the as-written selection with position 0 stages row 0. */
  lemma SwappedAsWrittenPicksFirst(t: MetaTable, idx: seq<nat>)
    requires |t.rows| == 2 && t.rows[0].id == 1 && t.rows[1].id == 0
    requires |idx| == 1 && idx[0] == 0
    ensures var w := StagedMetaAsWritten(t.rows, MatchedIds(t.rows, [0], []), idx);
      w.Success? && |w.value| == 1 && w.value[0] == t.rows[0]
  {
    SwappedIdsMatch(t);
    var picked := Take(t.rows, MatchedIds(t.rows, [0], []));
    assert picked.Success? && picked.value[0] == t.rows[0];
  }

  /** Line 129 as written raises on IDs past the last row position, where
      the mask-then-reorder selection stages the requested row. */
  lemma StagedMetaAsWrittenRaises()
    ensures StagedMetaAsWritten(LargeIdTable().rows, MatchedIds(LargeIdTable().rows, [20], []), [0])
      == Failure(IndexOutOfRange)
    ensures Take(Masked(LargeIdTable().rows, MatchMask(LargeIdTable().rows, [20], [])), [0])
      == Success([MetaRow(20, map[])])
  {
    var u := LargeIdTable();
    assert MatchMask(u.rows, [20], []) == [false, true];
    assert Ids(u.rows) == [10, 20];
    assert Masked(Ids(u.rows), [false, true]) == [20];
    assert Masked(u.rows, [false, true]) == [u.rows[1]];
  }

  class InterfaceDB {
    const hdf: map<string, SurveyTable>
    var memoryUsed: nat
    var memoryWarning: nat
    var memoryMax: nat
    /** Row mask of the last resolved survey. */
    var surveyBool: seq<bool>
    /** Metadata rows of the last resolution, one per requested ID. */
    var meta: seq<MetaRow>
    /** For each requested ID, its position in the matched subset. */
    var indices: seq<nat>

    /** Every survey's tables are well formed and row-aligned. */
    ghost predicate Valid()
    {
      forall s :: s in hdf ==> WellFormedSurvey(hdf[s])
    }

    /** Opens the archive, then reads the process's resident memory `rss`.
        The requested `maximumRam` is not used: the maximum is always 10 Gb. */
    constructor (hdf: map<string, SurveyTable>, maximumRam: nat, rss: nat)
      requires forall s :: s in hdf ==> WellFormedSurvey(hdf[s])
      ensures this.hdf == hdf && Valid()
      ensures memoryWarning == 5 * GB && memoryMax == 10 * GB
      ensures memoryUsed == rss
      ensures surveyBool == [] && meta == [] && indices == []
    {
      this.hdf := hdf;
      memoryUsed := 0;
      memoryWarning := 5 * GB;
      memoryMax := 10 * GB;
      surveyBool, meta, indices := [], [], [];
      new;
      var warned := Update(rss);
    }

    /** `update`: memory in use becomes the process's resident size; the
        result says whether that is above the warning level. */
    method Update(rss: nat) returns (warn: bool)
      modifies this`memoryUsed
      ensures memoryUsed == rss
      ensures warn <==> rss > memoryWarning
    {
      memoryUsed := rss;
      warn := memoryUsed > memoryWarning;
    }

    /** A load of `cost` bytes stays within the hard maximum (equality is accepted). */
    predicate Admits(cost: nat)
      reads this`memoryUsed, this`memoryMax
    {
      cost + memoryUsed <= memoryMax
    }

    /** The table `grab_ids` reads: the one handed in, else the survey's own. */
    function TableFor(survey: string, metaArg: Option<MetaTable>): MetaTable
      requires survey in hdf
    {
      if metaArg.Some? then metaArg.value else hdf[survey].meta
    }

    /** Number of rows of a survey that the request matches. */
    function Hits(survey: string, ids: seq<int>, matchMeta: seq<(string, Cell)>): nat
      requires survey in hdf
    {
      CountTrue(MatchMask(hdf[survey].meta.rows, ids, matchMeta))
    }

    /** Why `stage_data` fails: an unknown survey, a failed resolution, or a
        survey without spectral records (its first record cannot be sized). */
    function StageError(survey: string, ids: seq<int>, matchMeta: seq<(string, Cell)>): Option<Error>
    {
      if survey !in hdf then Some(UnknownSurvey)
      else if ResolveError(hdf[survey].meta, ids, matchMeta).Some? then ResolveError(hdf[survey].meta, ids, matchMeta)
      else if |hdf[survey].spec| == 0 then Some(IndexOutOfRange)
      else None
    }

    /** Why `grab_spec` on one survey fails, with `used` bytes in use and a
        maximum of `max`: a staging failure, or the budget refusing the load. */
    function SpecError(survey: string, ids: seq<int>, matchMeta: seq<(string, Cell)>, used: nat, max: nat): Option<Error>
    {
      if StageError(survey, ids, matchMeta).Some? then StageError(survey, ids, matchMeta)
      else if hdf[survey].recordBytes * Hits(survey, ids, matchMeta) + used > max then Some(BudgetExceeded)
      else None
    }

    /** A non-empty request that matches no row of a known survey is refused
        by resolution (every insertion point lies past the end), so the
        no-match branch of `grab_spec` is reached only with no IDs. */
    lemma EmptyMatchRefused(survey: string, ids: seq<int>, matchMeta: seq<(string, Cell)>)
      requires survey in hdf && ids != [] && Hits(survey, ids, matchMeta) == 0
      ensures StageError(survey, ids, matchMeta).Some?
    {
      assert |MatchedIds(hdf[survey].meta.rows, ids, matchMeta)| == 0;
      assert AllBelow(MatchedIds(hdf[survey].meta.rows, ids, matchMeta), ids[0]);
    }

    /** The state a successful `grab_ids` on table t leaves behind. */
    ghost predicate Staged(t: MetaTable, ids: seq<int>, matchMeta: seq<(string, Cell)>)
      reads this
    {
      StagedState(t, ids, matchMeta, surveyBool, meta, indices)
    }

    /** Order preservation: when every requested ID survives the filters,
        row k of the staged metadata and position `indices[k]` of the matched
        subset both carry the k-th requested ID, repeats included. */
    lemma OrderPreserved(t: MetaTable, ids: seq<int>, matchMeta: seq<(string, Cell)>)
      requires Staged(t, ids, matchMeta)
      requires forall k :: 0 <= k < |ids| ==> ids[k] in MatchedIds(t.rows, ids, matchMeta)
      ensures |meta| == |ids| && |indices| == |ids|
      ensures forall k :: 0 <= k < |ids| ==> MatchedIds(t.rows, ids, matchMeta)[indices[k]] == ids[k]
      ensures forall k :: 0 <= k < |ids| ==> meta[k].id == ids[k]
    {
      var mask := MatchMask(t.rows, ids, matchMeta);
      var gdi := Masked(Ids(t.rows), mask);
      forall k | 0 <= k < |ids|
        ensures gdi[indices[k]] == ids[k] && meta[k].id == ids[k]
      {
        var i :| 0 <= i < |gdi| && gdi[i] == ids[k];
        MaskedAt(Ids(t.rows), mask, indices[k]);
        MaskedAt(t.rows, mask, indices[k]);
      }
    }

    /** An ID present in the survey but removed by a filter is not refused:
        with rows of IDs a < b and a filter that only row b passes, asking
        for [a, b] succeeds and stages row b twice. */
    lemma FilteredIdStagesNextRow(t: MetaTable, key: string, value: Cell)
      requires |t.rows| == 2 && t.rows[0].id < t.rows[1].id
      requires key in t.columns && WellFormedMeta(t)
      requires t.rows[0].cols[key] != value && t.rows[1].cols[key] == value
      requires Staged(t, [t.rows[0].id, t.rows[1].id], [(key, value)])
      ensures ResolveError(t, [t.rows[0].id, t.rows[1].id], [(key, value)]) == None
      ensures |meta| == 2 && meta[0] == t.rows[1] && meta[1] == t.rows[1]
    {
      var ids, mm := [t.rows[0].id, t.rows[1].id], [(key, value)];
      var mask := MatchMask(t.rows, ids, mm);
      assert !RowMatches(t.rows[0], mm) by {
        assert t.rows[0].cols[mm[0].0] != mm[0].1;
      }
      assert RowMatches(t.rows[1], mm);
      assert mask == [false, true];
      assert Ids(t.rows) == ids;
      assert Masked(Ids(t.rows), mask) == [t.rows[1].id];
      assert Masked(t.rows, mask) == [t.rows[1]];
      assert !AllBelow(MatchedIds(t.rows, ids, mm), ids[0]);
      assert !AllBelow(MatchedIds(t.rows, ids, mm), ids[1]);
    }

    /** Line 129 as written selects rows by ID value: with two rows whose IDs
        are 1 and 0, asking for ID 0 stages row 0 (of ID 1) where the
        mask-then-reorder selection stages row 1 (of ID 0). */
    lemma StagedMetaAsWrittenDiffers(t: MetaTable)
      requires |t.rows| == 2 && t.rows[0].id == 1 && t.rows[1].id == 0
      requires Staged(t, [0], [])
      ensures |meta| == 1 && meta[0] == t.rows[1]
      ensures var w := StagedMetaAsWritten(t.rows, MatchedIds(t.rows, [0], []), indices);
        w.Success? && |w.value| == 1 && w.value[0] == t.rows[0]
    {
      SwappedIdsMatch(t);
      assert indices[0] == 0;
      SwappedAsWrittenPicksFirst(t, indices);
    }

    /** `grab_ids`: checks that every requested ID is in the survey, builds
        the row mask (ID requested and every filter equal), and records for
        each requested ID its position in the matched subset, found by
        sorting the matched IDs once and binary-searching each request.
        Nothing is recorded when it fails. */
    method GrabIds(survey: string, ids: seq<int>, metaArg: Option<MetaTable>, matchMeta: seq<(string, Cell)>)
      returns (r: Result<seq<bool>>)
      requires Valid()
      requires metaArg.Some? ==> WellFormedMeta(metaArg.value)
      modifies this`surveyBool, this`meta, this`indices
      ensures survey !in hdf ==> r == Failure(UnknownSurvey)
      ensures survey in hdf ==> (r.Failure? <==> ResolveError(TableFor(survey, metaArg), ids, matchMeta).Some?)
      ensures survey in hdf && r.Failure? ==> Some(r.error) == ResolveError(TableFor(survey, metaArg), ids, matchMeta)
      ensures r.Failure? ==> surveyBool == old(surveyBool) && meta == old(meta) && indices == old(indices)
      ensures r.Success? ==> survey in hdf && r.value == MatchMask(TableFor(survey, metaArg).rows, ids, matchMeta)
      ensures r.Success? ==> Staged(TableFor(survey, metaArg), ids, matchMeta)
    {
      if survey !in hdf {
        return Failure(UnknownSurvey);
      }
      var t := TableFor(survey, metaArg);
      var matched := MatchRows(t, ids, matchMeta);
      if matched.Failure? {
        return Failure(matched.error);
      }
      var matchSurvey := matched.value;
      // position of each requested ID in the matched subset
      var gdi := Masked(Ids(t.rows), matchSurvey);
      var xsorted := ArgSort(gdi);
      var ypos := SearchSorted(gdi, xsorted, ids);
      PlaceRequested(t, ids, matchMeta, xsorted, ypos);
      var taken := Take(xsorted, ypos);
      if taken.Failure? {
        return Failure(IndexOutOfRange);
      }
      var idx := taken.value;
      surveyBool := matchSurvey;
      meta := Take(Masked(t.rows, matchSurvey), idx).value;
      indices := idx;
      r := Success(matchSurvey);
    }

    /** `stage_data`: resolves the request, then admits the load iff one
        record's size times the number of matched rows, added to the memory
        in use, stays within the maximum. Memory in use is left as it was;
        the staged fields change exactly when resolution succeeds, even if
        the load is then refused or fails. */
    method StageData(survey: string, ids: seq<int>, matchMeta: seq<(string, Cell)>) returns (r: Result<bool>)
      requires Valid()
      modifies this`surveyBool, this`meta, this`indices
      ensures memoryUsed == old(memoryUsed) && memoryMax == old(memoryMax)
      ensures r.Failure? <==> StageError(survey, ids, matchMeta).Some?
      ensures survey !in hdf || ResolveError(hdf[survey].meta, ids, matchMeta).Some? ==>
        surveyBool == old(surveyBool) && meta == old(meta) && indices == old(indices)
      ensures survey in hdf && ResolveError(hdf[survey].meta, ids, matchMeta).None? ==> Staged(hdf[survey].meta, ids, matchMeta)
      ensures r.Failure? ==> Some(r.error) == StageError(survey, ids, matchMeta)
      ensures r.Success? ==> survey in hdf && Staged(hdf[survey].meta, ids, matchMeta)
      ensures r.Success? ==> (r.value <==> Admits(hdf[survey].recordBytes * CountTrue(surveyBool)))
    {
      var matched := GrabIds(survey, ids, None, matchMeta);
      if matched.Failure? {
        return Failure(matched.error);
      }
      var nhits := CountTrue(matched.value);
      if |hdf[survey].spec| == 0 {
        return Failure(IndexOutOfRange);
      }
      var newMemory := hdf[survey].recordBytes * nhits;
      if newMemory + memoryUsed > memoryMax {
        return Success(false);
      }
      return Success(true);
    }

    /** Spectra and metadata loaded for survey `survey` (see `LoadedFromTable`). */
    ghost predicate LoadedFrom(survey: string, ids: seq<int>, matchMeta: seq<(string, Cell)>, l: Loaded)
    {
      survey in hdf && LoadedFromTable(hdf[survey], ids, matchMeta, l)
    }

    /** `grab_spec` on one survey: stages the request; a refusal is a failure;
        no matched row gives nothing; otherwise the matched spectral records
        reordered like the staged metadata, one per requested ID. */
    method GrabSpec(survey: string, ids: seq<int>, matchMeta: seq<(string, Cell)>) returns (r: Result<Option<Loaded>>)
      requires Valid()
      modifies this`surveyBool, this`meta, this`indices
      ensures r.Failure? <==> SpecError(survey, ids, matchMeta, memoryUsed, memoryMax).Some?
      ensures survey !in hdf || ResolveError(hdf[survey].meta, ids, matchMeta).Some? ==>
        surveyBool == old(surveyBool) && meta == old(meta) && indices == old(indices)
      ensures survey in hdf && ResolveError(hdf[survey].meta, ids, matchMeta).None? ==> Staged(hdf[survey].meta, ids, matchMeta)
      ensures r.Failure? ==> Some(r.error) == SpecError(survey, ids, matchMeta, memoryUsed, memoryMax)
      ensures r.Success? ==> survey in hdf && Staged(hdf[survey].meta, ids, matchMeta)
      ensures r.Success? ==> (r.value.None? <==> Hits(survey, ids, matchMeta) == 0)
      ensures r.Success? && r.value.Some? ==> r.value.value.meta == meta
      ensures r.Success? && r.value.Some? ==> LoadedFrom(survey, ids, matchMeta, r.value.value)
    {
      var staged := StageData(survey, ids, matchMeta);
      if staged.Failure? {
        return Failure(staged.error);
      }
      if !staged.value {
        return Failure(BudgetExceeded);
      }
      if CountTrue(surveyBool) == 0 {
        return Success(None);
      }
      var st := hdf[survey];
      var tmpData := Masked(st.spec, surveyBool);
      StagedLoads(st, ids, matchMeta, surveyBool, meta, indices);
      var data := Take(tmpData, indices).value;
      r := Success(Some(Loaded(data, meta)));
    }

    /** Parallel result lists of `grab_spec`, pair j loaded from survey `kept[j]`. */
    ghost predicate LoadedList(kept: seq<string>, allSpec: seq<seq<SpecRecord>>, allMeta: seq<seq<MetaRow>>,
                               ids: seq<int>, matchMeta: seq<(string, Cell)>)
    {
      && |allSpec| == |kept| && |allMeta| == |kept|
      && forall j :: 0 <= j < |kept| ==> LoadedFrom(kept[j], ids, matchMeta, Loaded(allSpec[j], allMeta[j]))
    }

    /** Appending one more loaded survey keeps the result lists parallel. */
    lemma LoadedFromSnoc(kept: seq<string>, allSpec: seq<seq<SpecRecord>>, allMeta: seq<seq<MetaRow>>,
                         ids: seq<int>, matchMeta: seq<(string, Cell)>, survey: string, l: Loaded)
      requires LoadedList(kept, allSpec, allMeta, ids, matchMeta)
      requires LoadedFrom(survey, ids, matchMeta, l)
      ensures LoadedList(kept + [survey], allSpec + [l.spec], allMeta + [l.meta], ids, matchMeta)
    {
      forall j | 0 <= j < |kept| + 1
        ensures LoadedFrom((kept + [survey])[j], ids, matchMeta, Loaded((allSpec + [l.spec])[j], (allMeta + [l.meta])[j]))
      {
        if j < |kept| {
          assert (kept + [survey])[j] == kept[j];
          assert Loaded((allSpec + [l.spec])[j], (allMeta + [l.meta])[j]) == Loaded(allSpec[j], allMeta[j]);
        } else {
          assert Loaded((allSpec + [l.spec])[j], (allMeta + [l.meta])[j]) == l;
        }
      }
    }

    /** The outcome of `grab_spec` on each survey of a list, under one budget. */
    function SpecErrors(surveys: seq<string>, ids: seq<int>, matchMeta: seq<(string, Cell)>, used: nat, max: nat): seq<Option<Error>>
    {
      seq(|surveys|, i requires 0 <= i < |surveys| => SpecError(surveys[i], ids, matchMeta, used, max))
    }

    /** The surveys of a list that the request matches at least one row of. */
    function HitMask(surveys: seq<string>, ids: seq<int>, matchMeta: seq<(string, Cell)>): seq<bool>
    {
      seq(|surveys|, i requires 0 <= i < |surveys| => surveys[i] in hdf && Hits(surveys[i], ids, matchMeta) > 0)
    }

    /** `grab_spec` on a list of surveys: the surveys in order, skipping those
        with no matched row, so that the two result lists stay parallel. The
        first survey that fails makes the whole call fail. */
    method GrabSpecList(surveys: seq<string>, ids: seq<int>, matchMeta: seq<(string, Cell)>)
      returns (r: Result<(seq<seq<SpecRecord>>, seq<seq<MetaRow>>)>)
      requires Valid()
      modifies this`surveyBool, this`meta, this`indices
      ensures r.Failure? <==> FirstError(SpecErrors(surveys, ids, matchMeta, memoryUsed, memoryMax)).Some?
      ensures r.Failure? ==> Some(r.error) == FirstError(SpecErrors(surveys, ids, matchMeta, memoryUsed, memoryMax))
      ensures r.Success? ==>
        var kept := Masked(surveys, HitMask(surveys, ids, matchMeta));
        && |r.value.0| == |kept| && |r.value.1| == |kept|
        && forall j :: 0 <= j < |kept| ==> LoadedFrom(kept[j], ids, matchMeta, Loaded(r.value.0[j], r.value.1[j]))
      ensures |surveys| == 0 ==> surveyBool == old(surveyBool) && meta == old(meta) && indices == old(indices)
      ensures r.Success? && |surveys| > 0 ==>
        surveys[|surveys| - 1] in hdf && Staged(hdf[surveys[|surveys| - 1]].meta, ids, matchMeta)
    {
      var allSpec: seq<seq<SpecRecord>> := [];
      var allMeta: seq<seq<MetaRow>> := [];
      ghost var errs := SpecErrors(surveys, ids, matchMeta, memoryUsed, memoryMax);
      ghost var hits := HitMask(surveys, ids, matchMeta);
      ghost var kept: seq<string> := [];
      for i := 0 to |surveys|
        invariant FirstError(errs[..i]).None?
        invariant kept == Masked(surveys[..i], hits[..i])
        invariant LoadedList(kept, allSpec, allMeta, ids, matchMeta)
        invariant i == 0 ==> surveyBool == old(surveyBool) && meta == old(meta) && indices == old(indices)
        invariant i > 0 ==> surveys[i - 1] in hdf && Staged(hdf[surveys[i - 1]].meta, ids, matchMeta)
      {
        var one := GrabSpec(surveys[i], ids, matchMeta);
        FirstErrorSnoc(errs, i);
        if one.Failure? {
          FirstErrorPrefix(errs, i + 1);
          return Failure(one.error);
        }
        MaskedPrefix(surveys, hits, i);
        assert hits[i] <==> one.value.Some?;
        if one.value.Some? {
          LoadedFromSnoc(kept, allSpec, allMeta, ids, matchMeta, surveys[i], one.value.value);
          allSpec := allSpec + [one.value.value.spec];
          allMeta := allMeta + [one.value.value.meta];
          kept := kept + [surveys[i]];
        }
      }
      assert surveys[..|surveys|] == surveys;
      assert hits[..|surveys|] == hits;
      assert errs[..|surveys|] == errs;
      r := Success((allSpec, allMeta));
    }

    /** What `grab_meta` returns for one survey. */
    function MetaSelection(survey: string, ids: Option<seq<int>>): seq<MetaRow>
      requires survey in hdf
    {
      SelectIds(hdf[survey].meta.rows, ids)
    }

    /** Why `grab_meta` on one survey fails. */
    function MetaError(survey: string, ids: Option<seq<int>>): Option<Error>
    {
      if survey !in hdf then Some(UnknownSurvey)
      else if ids.None? then None
      else ResolveError(hdf[survey].meta, ids.value, [])
    }

    /** The outcome of `grab_meta` on each survey of a list. */
    function MetaErrors(surveys: seq<string>, ids: Option<seq<int>>): seq<Option<Error>>
    {
      seq(|surveys|, i requires 0 <= i < |surveys| => MetaError(surveys[i], ids))
    }

    /** `grab_meta` on one survey: the whole metadata table, or with IDs the
        matched rows in table order, which also become the staged metadata. */
    method GrabMeta(survey: string, ids: Option<seq<int>>) returns (r: Result<seq<MetaRow>>)
      requires Valid()
      modifies this`surveyBool, this`meta, this`indices
      ensures r.Failure? <==> MetaError(survey, ids).Some?
      ensures r.Failure? ==> Some(r.error) == MetaError(survey, ids)
      ensures r.Success? ==> survey in hdf && r.value == MetaSelection(survey, ids)
      ensures r.Success? && ids.Some? ==> meta == r.value
      ensures r.Success? && ids.Some? ==> surveyBool == MatchMask(hdf[survey].meta.rows, ids.value, [])
      ensures r.Success? && ids.Some? ==>
        && |indices| == |ids.value|
        && forall k :: 0 <= k < |ids.value| ==> IsCeiling(MatchedIds(hdf[survey].meta.rows, ids.value, []), ids.value[k], indices[k])
      ensures ids.None? ==> surveyBool == old(surveyBool) && meta == old(meta) && indices == old(indices)
    {
      if survey !in hdf {
        return Failure(UnknownSurvey);
      }
      var rows := hdf[survey].meta.rows;
      if ids.None? {
        return Success(rows);
      }
      var matched := GrabIds(survey, ids.value, None, []);
      if matched.Failure? {
        return Failure(matched.error);
      }
      rows := Masked(rows, surveyBool);
      meta := rows;
      r := Success(rows);
    }

    /** Appending one more survey's selection keeps the result list aligned with the surveys. */
    lemma MetaListSnoc(surveys: seq<string>, ids: Option<seq<int>>, allMeta: seq<seq<MetaRow>>, x: seq<MetaRow>, i: nat)
      requires i < |surveys| && |allMeta| == i
      requires forall j :: 0 <= j < i ==> surveys[j] in hdf && allMeta[j] == MetaSelection(surveys[j], ids)
      requires surveys[i] in hdf && x == MetaSelection(surveys[i], ids)
      ensures forall j :: 0 <= j < i + 1 ==> surveys[j] in hdf && (allMeta + [x])[j] == MetaSelection(surveys[j], ids)
    {
    }

    /** `grab_meta` on a list of surveys: one result per survey, in order;
        the first survey that fails makes the whole call fail. */
    method GrabMetaList(surveys: seq<string>, ids: Option<seq<int>>) returns (r: Result<seq<seq<MetaRow>>>)
      requires Valid()
      modifies this`surveyBool, this`meta, this`indices
      ensures r.Failure? <==> FirstError(MetaErrors(surveys, ids)).Some?
      ensures r.Failure? ==> Some(r.error) == FirstError(MetaErrors(surveys, ids))
      ensures r.Success? ==> |r.value| == |surveys|
      ensures r.Success? ==> forall j :: 0 <= j < |surveys| ==> surveys[j] in hdf && r.value[j] == MetaSelection(surveys[j], ids)
      ensures ids.None? ==> surveyBool == old(surveyBool) && meta == old(meta) && indices == old(indices)
      ensures r.Success? && ids.Some? && |surveys| > 0 ==> meta == r.value[|surveys| - 1]
      ensures r.Success? && ids.Some? && |surveys| > 0 ==>
        surveys[|surveys| - 1] in hdf && surveyBool == MatchMask(hdf[surveys[|surveys| - 1]].meta.rows, ids.value, [])
      ensures r.Success? && ids.Some? && |surveys| > 0 ==>
        && |indices| == |ids.value|
        && forall k :: 0 <= k < |ids.value| ==>
          IsCeiling(MatchedIds(hdf[surveys[|surveys| - 1]].meta.rows, ids.value, []), ids.value[k], indices[k])
    {
      var allMeta: seq<seq<MetaRow>> := [];
      ghost var errs := MetaErrors(surveys, ids);
      for i := 0 to |surveys|
        invariant |allMeta| == i
        invariant FirstError(errs[..i]).None?
        invariant forall j :: 0 <= j < i ==> surveys[j] in hdf && allMeta[j] == MetaSelection(surveys[j], ids)
        invariant ids.None? ==> surveyBool == old(surveyBool) && meta == old(meta) && indices == old(indices)
        invariant ids.Some? && 0 < i ==> meta == allMeta[i - 1]
        invariant ids.Some? && 0 < i ==> surveyBool == MatchMask(hdf[surveys[i - 1]].meta.rows, ids.value, [])
        invariant ids.Some? && 0 < i ==>
          && |indices| == |ids.value|
          && forall k :: 0 <= k < |ids.value| ==>
            IsCeiling(MatchedIds(hdf[surveys[i - 1]].meta.rows, ids.value, []), ids.value[k], indices[k])
      {
        var one := GrabMeta(surveys[i], ids);
        FirstErrorSnoc(errs, i);
        if one.Failure? {
          FirstErrorPrefix(errs, i + 1);
          return Failure(one.error);
        }
        MetaListSnoc(surveys, ids, allMeta, one.value, i);
        allMeta := allMeta + [one.value];
      }
      assert errs[..|surveys|] == errs;
      r := Success(allMeta);
    }
  }
}

=== FILE: outcomes.dfy ===
/** Failure-aware results shared by the catalog and the survey store. */
module Outcomes {

  datatype Option<T> = None | Some(value: T)

  /** The ways a lookup can fail. Each stands for an exception the
      original raises (an IOError, a KeyError or an IndexError) or, for
      BudgetExceeded, for a staging refusal. */
  datatype Error =
    | UnknownSurvey      // survey absent from the file or from the survey dictionary
    | PartialCoverage    // a requested ID is absent from a survey's ID column
    | MissingColumn      // a filter names a column the metadata table lacks
    | IndexOutOfRange    // an integer index past either end of an array
    | BudgetExceeded     // staging refused by the memory budget
    | BadArgument        // an argument of the wrong kind
    | NonIntegerIndex    // an empty mask, built without a dtype as a float array, used as an index

  datatype Result<T> = Success(value: T) | Failure(error: Error)

  /** The outcome of running steps in order and stopping at the first
      failure: the first error of the list, if any. */
  function FirstError(es: seq<Option<Error>>): Option<Error>
  {
    if es == [] then None
    else if FirstError(es[..|es| - 1]).Some? then FirstError(es[..|es| - 1])
    else es[|es| - 1]
  }

  /** `FirstError` is none exactly when no step fails, and otherwise the
      error of a failing step that every earlier step passed. */
  lemma {:induction false} FirstErrorIsFirst(es: seq<Option<Error>>)
    ensures FirstError(es).None? <==> forall i :: 0 <= i < |es| ==> es[i].None?
    ensures FirstError(es).Some? ==>
      exists i :: 0 <= i < |es| && es[i] == FirstError(es) && forall j :: 0 <= j < i ==> es[j].None?
  {
    if es != [] {
      var n := |es| - 1;
      FirstErrorIsFirst(es[..n]);
      assert forall i :: 0 <= i < n ==> es[..n][i] == es[i];
      if FirstError(es[..n]).None? {
        assert forall j :: 0 <= j < n ==> es[j].None?;
      }
    }
  }

  /** Running one more step after a clean prefix yields that step's outcome. */
  lemma FirstErrorSnoc(es: seq<Option<Error>>, i: nat)
    requires i < |es| && FirstError(es[..i]).None?
    ensures FirstError(es[..i + 1]) == es[i]
  {
    assert es[..i + 1][..i] == es[..i];
  }

  /** Once a prefix has failed, later steps do not change the outcome. */
  lemma {:induction false} FirstErrorPrefix(es: seq<Option<Error>>, i: nat)
    requires i <= |es| && FirstError(es[..i]).Some?
    ensures FirstError(es) == FirstError(es[..i])
    decreases |es|
  {
    if i < |es| {
      var n := |es| - 1;
      assert es[..n][..i] == es[..i];
      FirstErrorPrefix(es[..n], i);
    } else {
      assert es[..i] == es;
    }
  }
}

=== FILE: selection.dfy ===
/** The array operations the two classes lean on, as functions over
    sequences: the count of a boolean mask, boolean-mask indexing
    `s[m]`, element-wise membership (`in1d`) and integer-array
    indexing `s[idx]` with negative indices counted from the end. */
module Selection {
  import opened Outcomes

  /** Number of true entries of a mask (the sum of a boolean array). */
  function CountTrue(m: seq<bool>): (n: nat)
    ensures n <= |m|
  {
    if m == [] then 0 else CountTrue(m[..|m| - 1]) + (if m[|m| - 1] then 1 else 0)
  }

  /** The mask is all true exactly when its count is its length. */
  lemma {:induction false} CountTrueAll(m: seq<bool>)
    ensures CountTrue(m) == |m| <==> forall i :: 0 <= i < |m| ==> m[i]
  {
    if m != [] {
      var n := |m| - 1;
      CountTrueAll(m[..n]);
      assert forall i :: 0 <= i < n ==> m[..n][i] == m[i];
    }
  }

  /** The mask's sum is zero iff no entry is true. */
  lemma {:induction false} CountTrueNone(m: seq<bool>)
    ensures CountTrue(m) == 0 <==> forall i :: 0 <= i < |m| ==> !m[i]
  {
    if m != [] {
      var n := |m| - 1;
      CountTrueNone(m[..n]);
      assert forall i :: 0 <= i < n ==> m[..n][i] == m[i];
    }
  }

  /** `s[m]`: the entries of `s` whose mask entry is true, in their original order. */
  function Masked<T>(s: seq<T>, m: seq<bool>): (r: seq<T>)
    requires |s| == |m|
    ensures |r| == CountTrue(m)
  {
    if s == [] then [] else
      Masked(s[..|s| - 1], m[..|m| - 1]) + (if m[|m| - 1] then [s[|s| - 1]] else [])
  }

  /** The positions of the true entries of a mask, in increasing order. */
  function Positions(m: seq<bool>): (p: seq<nat>)
    ensures |p| == CountTrue(m)
    ensures forall k :: 0 <= k < |p| ==> p[k] < |m| && m[p[k]]
    ensures forall a, b :: 0 <= a < b < |p| ==> p[a] < p[b]
    ensures forall i :: 0 <= i < |m| && m[i] ==> i in p
  {
    if m == [] then [] else
      Positions(m[..|m| - 1]) + (if m[|m| - 1] then [|m| - 1] else [])
  }

  /** Entry k of `s[m]` is the entry of `s` at the k-th true position of `m`. */
  lemma {:induction false} MaskedAt<T>(s: seq<T>, m: seq<bool>, k: nat)
    requires |s| == |m| && k < CountTrue(m)
    ensures Masked(s, m)[k] == s[Positions(m)[k]]
  {
    var n := |s| - 1;
    if k < CountTrue(m[..n]) {
      MaskedAt(s[..n], m[..n], k);
    }
  }

  /** `s[m]` holds exactly the entries of `s` at true mask positions. */
  lemma MaskedMembership<T>(s: seq<T>, m: seq<bool>, x: T)
    requires |s| == |m|
    ensures x in Masked(s, m) <==> exists i :: 0 <= i < |s| && m[i] && s[i] == x
  {
    var r, p := Masked(s, m), Positions(m);
    if x in r {
      var k :| 0 <= k < |r| && r[k] == x;
      MaskedAt(s, m, k);
      assert m[p[k]] && s[p[k]] == x;
    }
    if i :| 0 <= i < |s| && m[i] && s[i] == x {
      assert i in p;
      var k :| 0 <= k < |p| && p[k] == i;
      MaskedAt(s, m, k);
      assert r[k] == x;
    }
  }

  /** Extending the input by one entry extends `s[m]` by that entry when it is selected. */
  lemma MaskedPrefix<T>(s: seq<T>, m: seq<bool>, i: nat)
    requires |s| == |m| && i < |s|
    ensures Masked(s[..i + 1], m[..i + 1]) == Masked(s[..i], m[..i]) + (if m[i] then [s[i]] else [])
  {
    assert s[..i + 1][..i] == s[..i];
    assert m[..i + 1][..i] == m[..i];
  }

  /** `in1d(a, b)`: entry i is true iff `a[i]` occurs in `b`. */
  function InMask<T(==)>(a: seq<T>, b: seq<T>): seq<bool>
  {
    seq(|a|, i requires 0 <= i < |a| => a[i] in b)
  }

  /** An integer index is usable on an array of length n (negatives count from the end). */
  predicate InBounds(i: int, n: nat)
  {
    -(n as int) <= i < n
  }

  function Wrap(i: int, n: nat): (j: nat)
    requires InBounds(i, n)
    ensures j < n
  {
    if i < 0 then n + i else i
  }

  /** `s[idx]`: integer-array indexing; any index out of range raises. */
  function Take<T>(s: seq<T>, idx: seq<int>): (r: Result<seq<T>>)
    ensures r.Success? <==> forall k :: 0 <= k < |idx| ==> InBounds(idx[k], |s|)
    ensures r.Failure? ==> r.error == IndexOutOfRange
    ensures r.Success? ==> |r.value| == |idx|
    ensures r.Success? ==> forall k :: 0 <= k < |idx| ==> r.value[k] == s[Wrap(idx[k], |s|)]
  {
    if idx == [] then Success([])
    else
      var last := idx[|idx| - 1];
      match Take(s, idx[..|idx| - 1])
      case Failure(e) => Failure(e)
      case Success(front) =>
        if InBounds(last, |s|) then Success(front + [s[Wrap(last, |s|)]])
        else Failure(IndexOutOfRange)
  }
}

=== FILE: sorting.dfy ===
/** `argsort` and `searchsorted` over integer keys, the two steps the
    survey store uses to place each requested ID in the matched subset. */
module Sorting {

  /** `order` lists positions of `keys` in nondecreasing key order. */
  predicate SortedBy(keys: seq<int>, order: seq<nat>)
  {
    && (forall i :: 0 <= i < |order| ==> order[i] < |keys|)
    && (forall a, b :: 0 <= a < b < |order| ==> keys[order[a]] <= keys[order[b]])
  }

  /** `order` lists every position below n exactly once. */
  predicate IsPermutationOfRange(order: seq<nat>, n: nat)
  {
    && |order| == n
    && (forall i :: 0 <= i < n ==> order[i] < n)
    && (forall j :: 0 <= j < n ==> j in order)
    && (forall a, b :: 0 <= a < b < n ==> order[a] != order[b])
  }

  /** `argsort(keys)`: a permutation of the positions that sorts the keys. */
  method ArgSort(keys: seq<int>) returns (order: seq<nat>)
    ensures IsPermutationOfRange(order, |keys|)
    ensures SortedBy(keys, order)
  {
    order := [];
    for i := 0 to |keys|
      invariant IsPermutationOfRange(order, i)
      invariant SortedBy(keys, order)
    {
      var p := 0;
      while p < i && keys[order[p]] <= keys[i]
        invariant 0 <= p <= i
        invariant forall a :: 0 <= a < p ==> keys[order[a]] <= keys[i]
      {
        p := p + 1;
      }
      InsertKeepsPermutation(order, i, p);
      InsertKeepsSorted(keys, order, i, p);
      order := order[..p] + [i] + order[p..];
    }
  }

  /** Inserting the next position anywhere keeps a permutation of the range. */
  lemma InsertKeepsPermutation(order: seq<nat>, i: nat, p: nat)
    requires IsPermutationOfRange(order, i) && p <= i
    ensures IsPermutationOfRange(order[..p] + [i] + order[p..], i + 1)
  {
    var o := order[..p] + [i] + order[p..];
    assert forall a :: 0 <= a < p ==> o[a] == order[a];
    assert o[p] == i;
    assert forall a :: p < a <= i ==> o[a] == order[a - 1];
    forall j | 0 <= j < i + 1
      ensures j in o
    {
      if j < i {
        assert j in order;
        var a :| 0 <= a < i && order[a] == j;
        if a < p { assert o[a] == j; } else { assert o[a + 1] == j; }
      }
    }
  }

  /** Inserting position i after the keys not above `keys[i]` and before the
      first key above it keeps the order sorted. */
  lemma InsertKeepsSorted(keys: seq<int>, order: seq<nat>, i: nat, p: nat)
    requires i < |keys| && IsPermutationOfRange(order, i) && SortedBy(keys, order)
    requires p <= i
    requires forall a :: 0 <= a < p ==> keys[order[a]] <= keys[i]
    requires p < i ==> keys[i] < keys[order[p]]
    ensures SortedBy(keys, order[..p] + [i] + order[p..])
  {
    var o := order[..p] + [i] + order[p..];
    assert forall a :: 0 <= a < p ==> o[a] == order[a];
    assert o[p] == i;
    assert forall a :: p < a <= i ==> o[a] == order[a - 1];
  }

  /** p is where `searchsorted` puts v: every key before it is smaller, none after it is. */
  predicate IsLeftInsertion(keys: seq<int>, order: seq<nat>, v: int, p: nat)
    requires forall i :: 0 <= i < |order| ==> order[i] < |keys|
  {
    && p <= |order|
    && (forall q :: 0 <= q < p ==> keys[order[q]] < v)
    && (forall q :: p <= q < |order| ==> v <= keys[order[q]])
  }

  /** Binary search for the leftmost insertion point of v in the sorted view. */
  method LeftInsertion(keys: seq<int>, order: seq<nat>, v: int) returns (p: nat)
    requires SortedBy(keys, order)
    ensures IsLeftInsertion(keys, order, v, p)
  {
    var lo, hi := 0, |order|;
    while lo < hi
      invariant 0 <= lo <= hi <= |order|
      invariant forall q :: 0 <= q < lo ==> keys[order[q]] < v
      invariant forall q :: hi <= q < |order| ==> v <= keys[order[q]]
    {
      var mid := (lo + hi) / 2;
      if keys[order[mid]] < v {
        lo := mid + 1;
      } else {
        hi := mid;
      }
    }
    p := lo;
  }

  /** `searchsorted(keys, vs, sorter=order)`: the leftmost insertion point of each value. */
  method SearchSorted(keys: seq<int>, order: seq<nat>, vs: seq<int>) returns (pos: seq<nat>)
    requires SortedBy(keys, order)
    ensures |pos| == |vs|
    ensures forall k :: 0 <= k < |vs| ==> IsLeftInsertion(keys, order, vs[k], pos[k])
  {
    pos := [];
    for k := 0 to |vs|
      invariant |pos| == k
      invariant forall j :: 0 <= j < k ==> IsLeftInsertion(keys, order, vs[j], pos[j])
    {
      var p := LeftInsertion(keys, order, vs[k]);
      pos := pos + [p];
    }
  }

  /** The insertion point lands past the end exactly when every key is below v. */
  lemma PastEndIffAllBelow(keys: seq<int>, order: seq<nat>, v: int, p: nat)
    requires IsPermutationOfRange(order, |keys|) && SortedBy(keys, order)
    requires IsLeftInsertion(keys, order, v, p)
    ensures p == |order| <==> forall i :: 0 <= i < |keys| ==> keys[i] < v
  {
    if p == |order| {
      forall i | 0 <= i < |keys|
        ensures keys[i] < v
      {
        assert i in order;
        var q :| 0 <= q < |order| && order[q] == i;
      }
    } else {
      assert v <= keys[order[p]];
    }
  }

  /** Inside the array, the insertion point holds the smallest key that is not below v. */
  lemma LeftInsertionIsCeiling(keys: seq<int>, order: seq<nat>, v: int, p: nat)
    requires IsPermutationOfRange(order, |keys|) && SortedBy(keys, order)
    requires IsLeftInsertion(keys, order, v, p) && p < |order|
    ensures v <= keys[order[p]]
    ensures forall i :: 0 <= i < |keys| && v <= keys[i] ==> keys[order[p]] <= keys[i]
  {
    forall i | 0 <= i < |keys| && v <= keys[i]
      ensures keys[order[p]] <= keys[i]
    {
      assert i in order;
      var q :| 0 <= q < |order| && order[q] == i;
      assert p <= q;
    }
  }

  /** A value that occurs among the keys is found: the insertion point holds it. */
  lemma LeftInsertionFindsPresent(keys: seq<int>, order: seq<nat>, v: int, p: nat)
    requires IsPermutationOfRange(order, |keys|) && SortedBy(keys, order)
    requires IsLeftInsertion(keys, order, v, p)
    requires v in keys
    ensures p < |order| && keys[order[p]] == v
  {
    var i :| 0 <= i < |keys| && keys[i] == v;
    PastEndIffAllBelow(keys, order, v, p);
    LeftInsertionIsCeiling(keys, order, v, p);
  }
}

=== FILE: string_order.dfy ===
/** Lexicographic order on survey names and `unique` over a list of
    names: the sorted, duplicate-free list of the distinct names. */
module StringOrder {

  /** a sorts strictly before b, character by character, a proper prefix first. */
  predicate Less(a: string, b: string)
    decreases |a|
  {
    if |a| == 0 then |b| > 0
    else if |b| == 0 then false
    else a[0] < b[0] || (a[0] == b[0] && Less(a[1..], b[1..]))
  }

  lemma {:induction false} LessIrreflexive(a: string)
    ensures !Less(a, a)
  {
    if |a| > 0 {
      LessIrreflexive(a[1..]);
    }
  }

  lemma {:induction false} LessTransitive(a: string, b: string, c: string)
    requires Less(a, b) && Less(b, c)
    ensures Less(a, c)
    decreases |a|
  {
    if |a| > 0 && a[0] == b[0] && b[0] == c[0] {
      LessTransitive(a[1..], b[1..], c[1..]);
    }
  }

  lemma {:induction false} LessTotal(a: string, b: string)
    ensures Less(a, b) || a == b || Less(b, a)
    decreases |a|
  {
    if |a| > 0 && |b| > 0 && a[0] == b[0] {
      LessTotal(a[1..], b[1..]);
      if a[1..] == b[1..] {
        assert a == [a[0]] + a[1..] && b == [b[0]] + b[1..];
      }
    }
  }

  predicate StrictlySorted(s: seq<string>)
  {
    forall i, j :: 0 <= i < j < |s| ==> Less(s[i], s[j])
  }

  /** A strictly sorted list repeats no name. */
  lemma SortedHasNoDuplicates(s: seq<string>)
    requires StrictlySorted(s)
    ensures forall i, j :: 0 <= i < j < |s| ==> s[i] != s[j]
  {
    forall i, j | 0 <= i < j < |s|
      ensures s[i] != s[j]
    {
      LessIrreflexive(s[i]);
    }
  }

  /** Adds x to a strictly sorted list at its place, unless it is already there. */
  method InsertSorted(r: seq<string>, x: string) returns (r': seq<string>)
    requires StrictlySorted(r)
    ensures StrictlySorted(r')
    ensures forall y :: y in r' <==> y in r || y == x
  {
    var p := 0;
    while p < |r| && Less(r[p], x)
      invariant 0 <= p <= |r|
      invariant forall i :: 0 <= i < p ==> Less(r[i], x)
    {
      p := p + 1;
    }
    if p < |r| && r[p] == x {
      return r;
    }
    // every entry from p on sorts after x
    forall j | p <= j < |r|
      ensures Less(x, r[j])
    {
      LessTotal(r[p], x);
      if j > p {
        LessTransitive(x, r[p], r[j]);
      }
    }
    r' := r[..p] + [x] + r[p..];
    forall i, j | 0 <= i < j < |r'|
      ensures Less(r'[i], r'[j])
    {
      if i < p && j > p {
        LessTransitive(r'[i], x, r'[j]);
      }
    }
    assert r == r[..p] + r[p..];
  }

  /** `unique(names)`: the distinct names, sorted. */
  method Unique(names: seq<string>) returns (r: seq<string>)
    ensures StrictlySorted(r)
    ensures forall y :: y in r <==> y in names
  {
    r := [];
    for i := 0 to |names|
      invariant StrictlySorted(r)
      invariant forall y :: y in r <==> y in names[..i]
    {
      r := InsertSorted(r, names[i]);
      assert names[..i + 1] == names[..i] + [names[i]];
    }
    assert names[..|names|] == names;
  }
}
